=== FILE: README.md ===
# Drone flight controller: a Dafny model

This project models the simulated drone flight controller of the UAV drone
simulator backend. The controller keeps one mutable status record with these fields:

- `armed`
- `altitude`
- `mission`
- `current_wp_index`
- `state`
- `battery`
- `gps_locked`
- `flight_mode`

Two kinds of code change this record:

- Operator commands, which either reject with a message (HTTP 400) or update fields in place:
  `arm`, `takeoff`, `land`, `upload_mission`, `clear_mission` and `reset`.
  A seventh route, `get_status`, only reads the record.
- A telemetry tick, which runs every five seconds. It applies these ordered
  sub-rules:
  1. battery drain;
  2. climb or descent, with a disarm on touchdown;
  3. critical-battery failsafe;
  4. waypoint progression.

Layout:

- `status.dfy` (module `DroneStatus`): the record as a value `Status`, the
  defaults `Initial`, the floored and capped arithmetic the controller uses,
  and the invariant `Inv`. `Inv` holds of every status reachable from the
  defaults:
  - `0 <= battery <= 100` and `0 <= altitude <= 120`;
  - `armed` holds exactly when the state is not disarmed;
  - on the ground (disarmed or armed): altitude 0, MANUAL, no waypoint;
  - flying: at least 10 m, AUTO, battery above 5;
  - landing: above ground, not AUTO.
- `rules.dfy` (module `FlightRules`): each command as a function from a
  status to the next status and its reply. Each tick sub-rule is one function,
  and `Tick` is their composition in source order.
- `controller.dfy` (module `FlightController`): class `Drone`, whose fields
  are the record's fields. Its methods update them in place, statement by
  statement as the route handlers do. Each method is proved to leave exactly
  the status its `FlightRules` function computes, and to keep `Inv`.
- `properties.dfy` (module `FlightProperties`): lemmas over sequences of
  ticks and commands:
  - touchdown and eventual disarm;
  - every flight ends disarmed within `battery + 19` ticks, and within 25
    ticks from critically low battery;
  - mission progression, which never overshoots the last waypoint;
  - reset idempotence;
  - the scenarios the backend's tests drive.

Notes on the code's own behaviour, which the model keeps:

- **Disarm on touchdown.** The tick disarms only inside its landing branch
  (backend/app.py:36-42). A drone that is `armed` on the ground is never
  disarmed by ticks; it drains its battery to 0 and stays armed
  (`ArmedNeverDisarms`).
- **Stale waypoint index.** `upload_mission` does not touch
  `current_wp_index` (backend/app.py:123-130), so uploads do not keep
  `WaypointInRange`; ticks, takeoff, land and `clear_mission` do. An upload
  of a shorter mission mid-flight leaves the index past the end
  (`StaleWaypointAfterUpload`). From then on every tick keeps the drone
  flying at that index, and of the tick's rules only the battery failsafe
  ends the flight
  (`StaleWaypointStays`).
- **No `inject_failure`.** There is no such route in backend/app.py, and
  `gps_locked` is written only by `reset`, which sets it to true. The lemmas
  therefore start from arbitrary statuses, for example a flight at 4 percent
  (`LowBatteryFlightEndsDisarmed`), instead of injected failures.
- **Messages.** Replies carry the controller's exact messages, not typed
  error kinds.

## Model

| member | source | states |
|---|---|---|
| FlightController.Drone.constructor | backend/app.py:10-19 | the process starts with the default record, which satisfies the invariant |
| FlightRules.Arm | backend/app.py:66-76 | accepted iff battery >= 10 and disarmed; a low battery is reported before a wrong state; a rejection changes nothing; success arms, sets state armed and spends exactly 1 percent; no other field changes; the invariant is kept |
| FlightController.Drone.Arm | backend/app.py:66-76 | updating the fields in place leaves exactly the status and reply of `FlightRules.Arm`, and keeps the invariant |
| FlightRules.Takeoff | backend/app.py:78-95 | accepted iff battery >= 20, GPS locked and armed, rejected in that guard order with each guard's message; success gives flying at 10 m in AUTO with exactly 5 percent spent; the waypoint becomes 0 when the mission is non-empty and is untouched when it is empty; nothing else changes; the invariant and the in-range waypoint are kept |
| FlightController.Drone.Takeoff | backend/app.py:78-95 | the in-place update equals `FlightRules.Takeoff` and keeps the invariant |
| FlightRules.Land | backend/app.py:97-105 | accepted iff flying; a rejection changes nothing; success gives landing in MANUAL and spends 2 percent, giving 0 below 2 percent; the waypoint and all other fields stay; the invariant is kept |
| FlightController.Drone.Land | backend/app.py:97-105 | the in-place update equals `FlightRules.Land` and keeps the invariant |
| FlightController.Drone.GetStatus | backend/app.py:107-109 | returns the whole current record, which satisfies the invariant on a valid controller |
| FlightRules.Plan | backend/app.py:122-130 | the generated mission has one waypoint per name, in order, the i-th carrying name i and position i |
| FlightProperties.PlanNamesRoundTrip | backend/app.py:123-130 | reading the names back from a generated mission gives exactly the operator's list |
| FlightRules.UploadMission | backend/app.py:111-135 | accepted iff GPS locked; a rejection leaves the status (and mission) unchanged; success replaces only the mission, whose names are the request's list in order (the empty list when the key is missing); the waypoint index is not touched; the invariant is kept |
| FlightController.Drone.UploadMission | backend/app.py:111-135 | the in-place update equals `FlightRules.UploadMission` and keeps the invariant |
| FlightRules.ClearMission | backend/app.py:138-142 | always accepted; mission becomes empty and the waypoint absent, nothing else changes |
| FlightController.Drone.ClearMission | backend/app.py:138-142 | the in-place update equals `FlightRules.ClearMission` and keeps the invariant |
| FlightRules.Reset | backend/app.py:144-156 | always accepted and yields exactly the initial record of app.py:10-19 |
| FlightController.Drone.Reset | backend/app.py:144-156 | the in-place update equals `FlightRules.Reset`; the controller is valid afterwards |
| FlightProperties.ResetIdempotent | backend/app.py:146-156 | resetting twice gives the same result as resetting once |
| FlightRules.Tick | backend/app.py:26-59 | no-op while disarmed; otherwise battery drops by exactly 1 floored at 0; a flying drone climbs 2 m capped at 120, a landing one descends 5 m floored at 0, an armed one only loses that 1 percent, every other field staying as it was; GPS and mission are untouched; and the invariant (battery in [0,100], altitude in [0,120], ...) and the in-range waypoint are kept |
| FlightController.Drone.Tick | backend/app.py:26-59 | the four sub-rules applied as successive in-place updates leave exactly `FlightRules.Tick` of the old record, and keep the invariant |
| FlightProperties.DisarmedStaysPut | backend/app.py:26-28 | any number of ticks leave a disarmed status unchanged |
| FlightProperties.ArmedNeverDisarms | backend/app.py:30-42 | ticks keep an armed drone armed at its altitude, with battery max(b - n, 0) after n ticks |
| FlightProperties.Touchdown | backend/app.py:36-42 | a landing tick from 5 m or below disarms: not armed, MANUAL, no waypoint, altitude 0 |
| FlightProperties.Descent | backend/app.py:36-37 | a landing tick above 5 m descends exactly 5 m and stays landing in the same mode, keeping the waypoint index that `land` left; apart from 1 percent of battery (floored at 0) and those 5 m, the record is unchanged |
| FlightProperties.LandingReachesGround | backend/app.py:36-42 | from landing at altitude a > 0 the drone is still landing at a - 5n for n < ceil(a/5), and is disarmed on the ground from ceil(a/5) ticks on |
| FlightProperties.CriticalBatteryFailsafe | backend/app.py:44-48 | a flying drone at 6 percent or less (5 or less after the drain) lands in FAILSAFE with no waypoint on that tick, after the climb |
| FlightProperties.Cruise | backend/app.py:30-59 | a flying tick with battery >= 7 and no active leg (empty mission or no index) spends 1 percent and climbs 2 m capped at 120, and changes nothing else: still flying in AUTO with the same index |
| FlightProperties.TickNeverTakesOff | backend/app.py:26-59 | a tick never makes a non-flying drone fly |
| FlightProperties.FlightEndsDisarmed | backend/app.py:30-48 | from any reachable flying status with battery b, b + 19 or more ticks leave it disarmed and not armed |
| FlightProperties.NextWaypoint | backend/app.py:50-54 | flying with charge to spare before the last waypoint, a tick advances the index by one; it also spends exactly 1 percent and climbs 2 m capped at 120, and changes nothing else |
| FlightProperties.FinalWaypoint | backend/app.py:55-59 | at the last waypoint a tick starts a MANUAL landing and clears the index |
| FlightProperties.WaypointNeverOvershoots | backend/app.py:50-59 | a tick keeps the index, advances it by one to at most len(mission) - 1, or clears it |
| FlightProperties.MissionCompletes | backend/app.py:50-59 | flying from waypoint i of m with at least m - i + 6 percent, the index is i + k after k < m - i ticks, and after m - i ticks the drone is landing in MANUAL with no index |
| FlightProperties.ArmOnlyOnce | backend/app.py:67-76 | after an accepted arm a second arm is rejected (battery message at exactly 10 percent, state message otherwise) |
| FlightProperties.TakeoffOnlyOnce | backend/test/test_state_transitions.py:46-54 | from any status a second takeoff is rejected and changes nothing: for low battery when the first started below 25 percent, otherwise with "must be armed" |
| FlightProperties.TakeoffStartsMission | backend/app.py:92-93 | from the defaults, upload, arm and takeoff are accepted and fly the uploaded names from waypoint 0 |
| FlightProperties.TwoWaypointMission | backend/test/test_mission_execution.py:52-64 | mission ["A","B"]: index 0 after takeoff, 1 after one tick, landing with no index after the second |
| FlightProperties.LandAndRearm | backend/test/test_state_transitions.py:18-37 | arm, takeoff, land, then two ticks: disarmed, not armed, MANUAL, no index, and arming is accepted again |
| FlightProperties.UploadNeedsGps | backend/app.py:113-114 | without GPS lock an upload is refused with the GPS message and the mission is kept |
| FlightProperties.StaleWaypointAfterUpload | backend/app.py:123-130 | uploading a shorter mission mid-flight keeps the invariant but leaves the index out of range, and the next tick neither advances nor lands |
| FlightProperties.StaleWaypointStays | backend/app.py:50-59 | an index past the end of the mission stays put and the drone keeps flying for n ticks when at least n + 6 percent is left |
| FlightProperties.LowBatteryFlightEndsDisarmed | backend/test/test_battery_drift.py:40-62 | flying at 6 percent or less at any altitude up to 120 m, 25 or more ticks leave the drone disarmed and not armed |
| FlightProperties.LandingBattery | backend/app.py:30-42 | from landing at altitude a > 0, n ticks spend exactly min(n, ceil(a/5)) percent floored at 0: every descent tick drains, and the drain stops at touchdown |
| FlightProperties.LowBatteryFlightEndsEmpty | backend/test/test_battery_drift.py:40-62 | flying at 4 percent or less from 10 m or higher, 25 or more ticks leave the battery at exactly 0 and the drone disarmed and not armed |

## Left out

- The telemetry thread and its five-second sleep (backend/app.py:22-24, 62). One tick is a sequential method; runs of ticks are the function `Ticks`. Races between the thread and the route handlers are not modelled.
- Waypoint coordinates (`base + i * 0.001`, backend/app.py:120-127) are floating point. A waypoint keeps its name and its position `i`, from which the coordinates are computed.
- Flask routing, `request.json`, `jsonify`, CORS and status codes: HTTP 200 and 400 become `Ok` and `Err` with the controller's messages. A request body whose `waypoints` key is missing is modelled (`None`, meaning the empty list). A body that is not JSON, a `waypoints` value of JSON `null` (the handler then raises and the request fails with status 500, leaving the status untouched), a string value (iterated character by character, one waypoint per character), and list entries that are not strings are not modelled.
- The reply of `upload_mission` also echoes the new mission. That echo is the `mission` field after the call and is not returned separately.
- `inject_failure` is called by the tests and the frontend but is not defined in backend/app.py, so it is not part of this model.
- The React frontend (frontend/src/App.js, frontend/src/MapView.jsx) is UI and fetch calls and is not part of this model.

=== FILE: controller.dfy ===
/** The controller as it runs: one long-lived status object whose fields the
    route handlers and the telemetry tick update in place. Each method is
    proved to leave exactly the status its rule in FlightRules computes. */
module FlightController {
  import opened DroneStatus
  import opened FlightRules

  class Drone {
    var armed: bool
    var altitude: int
    var mission: seq<Waypoint>
    var currentWp: Option<nat>
    var state: FlightState
    var battery: int
    var gpsLocked: bool
    var flightMode: FlightMode

    /** The whole record as a value, what `get_status` serialises. */
    function Snapshot(): Status
      reads this
    {
      Status(armed, altitude, mission, currentWp, state, battery, gpsLocked, flightMode)
    }

    ghost predicate Valid()
      reads this
    {
      Inv(Snapshot())
    }

    /** The record created once at process start. */
    constructor ()
      ensures Snapshot() == Initial && Valid()
    {
      armed := false;
      altitude := 0;
      mission := [];
      currentWp := None;
      state := Disarmed;
      battery := MaxBattery;
      gpsLocked := true;
      flightMode := Manual;
    }

    /** One pass of the telemetry loop's body. */
    method Tick()
      modifies this
      ensures Snapshot() == FlightRules.Tick(old(Snapshot()))
      ensures old(Valid()) ==> Valid()
    {
      if state == Disarmed {
        return;
      }
      battery := ClampedSub(battery, 1);
      ghost var drained := Snapshot();

      if state == Flying {
        altitude := ClampedAdd(altitude, 2, MaxAltitude);
      } else if state == Landing {
        altitude := ClampedSub(altitude, 5);
        if altitude == 0 {
          state := Disarmed;
          armed := false;
          flightMode := Manual;
          currentWp := None;
        }
      }
      assert Snapshot() == MoveAltitude(drained);
      ghost var moved := Snapshot();

      if battery <= 5 && state == Flying {
        state := Landing;
        flightMode := Failsafe;
        currentWp := None;
      }
      assert Snapshot() == CriticalBattery(moved);

      if state == Flying && |mission| > 0 {
        var idx := currentWp;
        if idx.Some? && idx.value < |mission| - 1 {
          currentWp := Some(currentWp.value + 1);
        } else if idx.Some? && idx.value == |mission| - 1 {
          state := Landing;
          flightMode := Manual;
          currentWp := None;
        }
      }
    }

    /** `arm` */
    method Arm() returns (r: Outcome)
      modifies this
      ensures Step(Snapshot(), r) == FlightRules.Arm(old(Snapshot()))
      ensures old(Valid()) ==> Valid()
    {
      if battery < 10 {
        return Err(ArmLowBattery);
      }
      if state != Disarmed {
        return Err(ArmBadState);
      }
      armed := true;
      state := Armed;
      battery := ClampedSub(battery, 1);
      r := Ok(ArmedOk);
    }

    /** `takeoff` */
    method Takeoff() returns (r: Outcome)
      modifies this
      ensures Step(Snapshot(), r) == FlightRules.Takeoff(old(Snapshot()))
      ensures old(Valid()) ==> Valid()
    {
      if battery < 20 {
        return Err(TakeoffLowBattery);
      }
      if !gpsLocked {
        return Err(TakeoffNoGps);
      }
      if state != Armed {
        return Err(TakeoffNotArmed);
      }
      altitude := 10;
      state := Flying;
      flightMode := Auto;
      battery := ClampedSub(battery, 5);
      if |mission| > 0 {
        currentWp := Some(0);
      }
      r := Ok(TookOff);
    }

    /** `land` */
    method Land() returns (r: Outcome)
      modifies this
      ensures Step(Snapshot(), r) == FlightRules.Land(old(Snapshot()))
      ensures old(Valid()) ==> Valid()
    {
      if state != Flying {
        return Err(LandNotFlying);
      }
      state := Landing;
      flightMode := Manual;
      battery := ClampedSub(battery, 2);
      r := Ok(LandingStarted);
    }

    /** `get_status`: the current record; on a valid controller it satisfies
        the invariant. */
    method GetStatus() returns (s: Status)
      ensures s == Snapshot()
      ensures Valid() ==> Inv(s)
    {
      s := Snapshot();
    }

    /** `upload_mission`; the reply's mission is the new `mission` field. */
    method UploadMission(waypoints: Option<seq<string>>) returns (r: Outcome)
      modifies this
      ensures Step(Snapshot(), r) == FlightRules.UploadMission(old(Snapshot()), waypoints)
      ensures old(Valid()) ==> Valid()
    {
      if !gpsLocked {
        return Err(UploadNoGps);
      }
      var names := if waypoints.Some? then waypoints.value else [];
      mission := Plan(names);
      r := Ok(MissionUploaded);
    }

    /** `clear_mission` */
    method ClearMission() returns (r: Outcome)
      modifies this
      ensures Step(Snapshot(), r) == FlightRules.ClearMission(old(Snapshot()))
      ensures old(Valid()) ==> Valid()
    {
      mission := [];
      currentWp := None;
      r := Ok(MissionCleared);
    }

    /** `reset` */
    method Reset() returns (r: Outcome)
      modifies this
      ensures Step(Snapshot(), r) == FlightRules.Reset(old(Snapshot()))
      ensures Valid()
    {
      armed := false;
      altitude := 0;
      mission := [];
      currentWp := None;
      state := Disarmed;
      battery := MaxBattery;
      gpsLocked := true;
      flightMode := Manual;
      r := Ok(ResetDone);
    }
  }
}

=== FILE: properties.dfy ===
/** What the state machine guarantees over sequences of commands and ticks:
    touchdown and eventual disarm, the battery failsafe, mission progression,
    and the behaviours the controller's own tests rely on. */
module FlightProperties {
  import opened DroneStatus
  import opened FlightRules

  // ---------------------------------------------------------------- reset

  /** Resetting twice gives the same record as resetting once, whatever the
      starting status. */
  lemma ResetIdempotent(s: Status)
    ensures Reset(Reset(s).status) == Reset(s)
    ensures Reset(s).status == Initial
  {
  }

  // ------------------------------------------------------ ticks, in order

  /** A disarmed drone is left alone by any number of ticks. */
  lemma {:induction false} DisarmedStaysPut(s: Status, n: nat)
    requires s.state == Disarmed
    ensures Ticks(s, n) == s
    decreases n
  {
    if n > 0 {
      DisarmedStaysPut(Tick(s), n - 1);
    }
  }

  /** Ticks only ever disarm from the landing branch: an armed drone on the
      ground stays armed, spending one percent per tick down to zero. */
  lemma {:induction false} ArmedNeverDisarms(s: Status, n: nat)
    requires s.state == Armed && s.battery >= 0
    ensures Ticks(s, n).state == Armed
    ensures Ticks(s, n).battery == ClampedSub(s.battery, n)
    ensures Ticks(s, n).altitude == s.altitude
    decreases n
  {
    if n > 0 {
      var t := Tick(s);
      assert t.state == Armed && t.battery == ClampedSub(s.battery, 1);
      ArmedNeverDisarms(t, n - 1);
      assert ClampedSub(t.battery, n - 1) == ClampedSub(s.battery, n);
    }
  }

  /** A landing tick that reaches the ground disarms: not armed, MANUAL, no
      active waypoint. */
  lemma Touchdown(s: Status)
    requires s.state == Landing && s.altitude <= 5
    ensures Tick(s).state == Disarmed && !Tick(s).armed
    ensures Tick(s).flightMode == Manual && Tick(s).currentWp == None
    ensures Tick(s).altitude == 0
  {
  }

  /** A landing tick above 5 m descends exactly 5 m and stays landing; the
      waypoint index that `land` left is kept until touchdown clears it. */
  lemma Descent(s: Status)
    requires s.state == Landing && s.altitude > 5
    ensures Tick(s).state == Landing && Tick(s).altitude == s.altitude - 5
    ensures Tick(s).flightMode == s.flightMode
    ensures Tick(s).currentWp == s.currentWp
    ensures Tick(s) == s.(battery := ClampedSub(s.battery, 1), altitude := s.altitude - 5)
  {
  }

  /** The number of landing ticks from `altitude` to the ground. */
  function LandingTicks(altitude: int): (n: nat)
    ensures altitude > 0 ==> 5 * (n - 1) < altitude <= 5 * n
  {
    if altitude <= 0 then 0 else (altitude + 4) / 5
  }

  /** From landing at altitude a > 0, the drone keeps landing for the first
      LandingTicks(a) - 1 ticks and is disarmed on the ground after
      LandingTicks(a) ticks, or any later count. */
  lemma {:induction false} LandingReachesGround(s: Status, n: nat)
    requires s.state == Landing && s.altitude > 0
    ensures n < LandingTicks(s.altitude) ==>
      Ticks(s, n).state == Landing && Ticks(s, n).altitude == s.altitude - 5 * n
    ensures n >= LandingTicks(s.altitude) ==>
      && Ticks(s, n).state == Disarmed && !Ticks(s, n).armed
      && Ticks(s, n).altitude == 0 && Ticks(s, n).flightMode == Manual
      && Ticks(s, n).currentWp == None
    decreases n
  {
    if n > 0 {
      if s.altitude <= 5 {
        Touchdown(s);
        DisarmedStaysPut(Tick(s), n - 1);
      } else {
        Descent(s);
        LandingReachesGround(Tick(s), n - 1);
      }
    }
  }

  /** After the drain, a flying drone at or below five percent lands in
      FAILSAFE mode on this tick; the mission rule does not get to run. */
  lemma CriticalBatteryFailsafe(s: Status)
    requires s.state == Flying && s.battery <= 6
    ensures Tick(s).state == Landing && Tick(s).flightMode == Failsafe
    ensures Tick(s).currentWp == None
    ensures Tick(s).altitude == ClampedAdd(s.altitude, 2, MaxAltitude)
  {
  }

  /** A flying tick above the failsafe level with no active leg (no
      mission, or no index) falls through the failsafe and mission rules:
      the drone keeps flying in AUTO with its index, and only the battery
      and altitude change. */
  lemma Cruise(s: Status)
    requires s.state == Flying && s.battery >= 7
    requires |s.mission| == 0 || s.currentWp.None?
    ensures Tick(s) == s.(battery := s.battery - 1, altitude := ClampedAdd(s.altitude, 2, MaxAltitude))
  {
  }

  /** A tick never turns a non-flying drone into a flying one. */
  lemma TickNeverTakesOff(s: Status)
    requires s.state != Flying
    ensures Tick(s).state != Flying
  {
  }

  /** Every flight ends on the ground: from a reachable flying status with
      battery b, at most b - 5 ticks bring it to landing (the failsafe at
      the latest), and at most 24 more (120 m at 5 m a tick) disarm it. */
  lemma {:induction false} FlightEndsDisarmed(s: Status, n: nat)
    requires Inv(s) && s.state == Flying
    requires n >= s.battery + 19
    ensures Ticks(s, n).state == Disarmed && !Ticks(s, n).armed
    decreases n
  {
    var t := Tick(s);
    if t.state == Flying {
      assert s.battery > 6 by {
        if s.battery <= 6 { CriticalBatteryFailsafe(s); }
      }
      FlightEndsDisarmed(t, n - 1);
    } else {
      assert t.state == Landing && 0 < t.altitude <= MaxAltitude;
      assert LandingTicks(t.altitude) <= 24;
      LandingReachesGround(t, n - 1);
    }
  }

  /** A flight at critically low battery, such as one whose battery was
      forced down mid-air, need not satisfy Inv; it still ends disarmed:
      the failsafe lands it on the first tick, and at most 24 more ticks
      bring it down from at most 120 m. */
  lemma LowBatteryFlightEndsDisarmed(s: Status, n: nat)
    requires s.state == Flying && 0 <= s.battery <= 6
    requires 0 <= s.altitude <= MaxAltitude
    requires n >= 25
    ensures Ticks(s, n).state == Disarmed && !Ticks(s, n).armed
  {
    CriticalBatteryFailsafe(s);
    var t := Tick(s);
    assert 0 < t.altitude <= MaxAltitude;
    assert LandingTicks(t.altitude) <= 24;
    LandingReachesGround(t, n - 1);
  }

  /** Every landing tick still drains the battery, and touchdown stops the
      drain: after n ticks from landing at altitude a > 0, the battery has
      lost min(n, LandingTicks(a)) percent, floored at zero. */
  lemma {:induction false} LandingBattery(s: Status, n: nat)
    requires s.state == Landing && s.altitude > 0 && s.battery >= 0
    ensures Ticks(s, n).battery ==
      ClampedSub(s.battery, if n < LandingTicks(s.altitude) then n else LandingTicks(s.altitude))
    decreases n
  {
    if n > 0 {
      var t := Tick(s);
      if s.altitude <= 5 {
        Touchdown(s);
        DisarmedStaysPut(t, n - 1);
      } else {
        Descent(s);
        assert LandingTicks(t.altitude) == LandingTicks(s.altitude) - 1;
        LandingBattery(t, n - 1);
      }
    }
  }

  /** A flight at 4 percent or less from 10 m or higher ends with an empty
      battery and the drone disarmed: the failsafe lands it from at least
      12 m, and the three or more landing ticks that follow each drain one
      percent before touchdown. */
  lemma LowBatteryFlightEndsEmpty(s: Status, n: nat)
    requires s.state == Flying && 0 <= s.battery <= 4
    requires 10 <= s.altitude <= MaxAltitude
    requires n >= 25
    ensures Ticks(s, n).battery == 0
    ensures Ticks(s, n).state == Disarmed && !Ticks(s, n).armed
  {
    LowBatteryFlightEndsDisarmed(s, n);
    CriticalBatteryFailsafe(s);
    var t := Tick(s);
    assert 3 <= LandingTicks(t.altitude) <= 24;
    LandingBattery(t, n - 1);
  }

  // ------------------------------------------------------ mission progress

  /** A flying tick with charge to spare moves to the next waypoint. */
  lemma NextWaypoint(s: Status, i: nat)
    requires s.state == Flying && s.battery >= 7
    requires s.currentWp == Some(i) && i < |s.mission| - 1
    ensures Tick(s).state == Flying && Tick(s).currentWp == Some(i + 1)
    ensures Tick(s) == s.(battery := s.battery - 1, altitude := ClampedAdd(s.altitude, 2, MaxAltitude),
                          currentWp := Some(i + 1))
  {
  }

  /** At the last waypoint the tick starts a MANUAL landing and drops the
      active waypoint. */
  lemma FinalWaypoint(s: Status)
    requires s.state == Flying && s.battery >= 7
    requires |s.mission| > 0 && s.currentWp == Some(|s.mission| - 1)
    ensures Tick(s).state == Landing && Tick(s).flightMode == Manual
    ensures Tick(s).currentWp == None
  {
  }

  /** A tick never moves the active waypoint beyond the last one, nor
      backwards: it either keeps it, advances it by one to an index that
      exists, or drops it. */
  lemma WaypointNeverOvershoots(s: Status)
    requires s.currentWp.Some?
    ensures Tick(s).currentWp.Some? ==>
      || Tick(s).currentWp == s.currentWp
      || (Tick(s).currentWp.value == s.currentWp.value + 1
          && Tick(s).currentWp.value <= |s.mission| - 1)
  {
  }

  /** Flying from waypoint i of a mission of m waypoints with at least
      m - i + 6 percent left, the drone is still flying the mission after
      each of the first m - i - 1 ticks, and after m - i ticks it has
      reached the last waypoint and is landing in MANUAL mode. */
  lemma {:induction false} MissionCompletes(s: Status, i: nat, k: nat)
    requires s.state == Flying
    requires s.currentWp == Some(i) && i < |s.mission|
    requires s.battery >= |s.mission| - i + 6
    requires k <= |s.mission| - i
    ensures k < |s.mission| - i ==>
      Ticks(s, k).state == Flying && Ticks(s, k).currentWp == Some(i + k)
    ensures k == |s.mission| - i ==>
      && Ticks(s, k).state == Landing && Ticks(s, k).flightMode == Manual
      && Ticks(s, k).currentWp == None
    decreases k
  {
    if k > 0 {
      if i < |s.mission| - 1 {
        NextWaypoint(s, i);
        MissionCompletes(Tick(s), i + 1, k - 1);
      } else {
        FinalWaypoint(s);
      }
    }
  }

  // ------------------------------------------------------ commands, in sequence

  /** Of two arm commands in a row, at most one is accepted: the second
      finds the drone already armed, or, at exactly ten percent, finds the
      battery too low first. */
  lemma ArmOnlyOnce(s: Status)
    requires Arm(s).outcome.Ok?
    ensures Arm(Arm(s).status).outcome.Err?
    ensures Arm(Arm(s).status).outcome ==
      if s.battery == 10 then Err(ArmLowBattery) else Err(ArmBadState)
  {
  }

  /** A second takeoff without landing is refused and changes nothing: for
      not being armed, or, when the first one left less than 20 percent
      (it started below 25), for low battery, which is checked first. */
  lemma TakeoffOnlyOnce(s: Status)
    requires Takeoff(s).outcome.Ok?
    ensures Takeoff(Takeoff(s).status).outcome.Err?
    ensures Takeoff(Takeoff(s).status).outcome ==
      if s.battery < 25 then Err(TakeoffLowBattery) else Err(TakeoffNotArmed)
    ensures Takeoff(Takeoff(s).status).status == Takeoff(s).status
  {
  }

  /** Upload, arm and takeoff from the defaults: the mission is flown from
      its first waypoint. */
  lemma TakeoffStartsMission(names: seq<string>)
    requires |names| > 0
    ensures var up := UploadMission(Initial, Some(names));
            var armed := Arm(up.status);
            var flying := Takeoff(armed.status);
            && up.outcome.Ok? && armed.outcome.Ok? && flying.outcome.Ok?
            && flying.status.currentWp == Some(0)
            && Names(flying.status.mission) == names
  {
  }

  /** Flying the controller's two-waypoint mission from the defaults: index
      0 after takeoff, 1 after one tick, landing with no index after two. */
  lemma TwoWaypointMission()
    ensures var flying := Takeoff(Arm(UploadMission(Initial, Some(["A", "B"])).status).status).status;
            && flying.currentWp == Some(0)
            && Tick(flying).currentWp == Some(1) && Tick(flying).state == Flying
            && Tick(Tick(flying)).state == Landing && Tick(Tick(flying)).currentWp == None
  {
  }

  /** reset, arm, takeoff, land and two ticks (10 m, then 5 m, then the
      ground): the drone is disarmed, MANUAL, with no active waypoint, and
      can be armed again. */
  lemma LandAndRearm()
    ensures var landing := Land(Takeoff(Arm(Initial).status).status);
            var ground := Ticks(landing.status, 2);
            && landing.outcome.Ok?
            && ground.state == Disarmed && !ground.armed
            && ground.flightMode == Manual && ground.currentWp == None
            && Arm(ground).outcome.Ok?
  {
  }

  /** An upload without GPS lock is refused and keeps the old mission. */
  lemma UploadNeedsGps(s: Status, names: seq<string>)
    requires !s.gpsLocked
    ensures UploadMission(s, Some(names)).outcome == Err(UploadNoGps)
    ensures UploadMission(s, Some(names)).status.mission == s.mission
  {
  }

  /** The generated mission names the operator's waypoints in order. */
  lemma PlanNamesRoundTrip(names: seq<string>)
    ensures Names(Plan(names)) == names
  {
  }

  /** Uploading keeps the active waypoint index, so a shorter mission
      uploaded mid-flight leaves it pointing past the end, and the next
      tick neither advances it nor lands (StaleWaypointStays: nor do any
      later ones until the battery failsafe). */
  lemma StaleWaypointAfterUpload()
    ensures var s := Status(true, 20, Plan(["A", "B", "C"]), Some(2), Flying, 50, true, Auto);
            var up := UploadMission(s, Some(["A"])).status;
            && Inv(s) && WaypointInRange(s)
            && Inv(up) && !WaypointInRange(up)
            && Tick(up).state == Flying && Tick(up).currentWp == Some(2)
  {
  }

  /** A waypoint index past the end of the mission is never advanced and
      never completes the mission: while the battery stays above the
      failsafe level, every tick keeps the drone flying at that index. */
  lemma {:induction false} StaleWaypointStays(s: Status, n: nat)
    requires s.state == Flying && s.currentWp.Some?
    requires s.currentWp.value >= |s.mission|
    requires s.battery >= n + 6
    ensures Ticks(s, n).state == Flying && Ticks(s, n).currentWp == s.currentWp
    decreases n
  {
    if n > 0 {
      var t := Tick(s);
      assert t.state == Flying && t.currentWp == s.currentWp && t.battery == s.battery - 1;
      StaleWaypointStays(t, n - 1);
    }
  }
}

=== FILE: rules.dfy ===
/** The flight state machine as functions from a status value to the next
    one: the operator commands with their guards, and the telemetry tick as
    the composition of its ordered sub-rules. */
module FlightRules {
  import opened DroneStatus

  /** A command's reply: HTTP 200 or 400, each with its message. */
  datatype Outcome = Ok(message: string) | Err(message: string)

  /** The status a command leaves behind together with its reply. */
  datatype Step = Step(status: Status, outcome: Outcome)

  const ArmLowBattery := "Battery too low to arm"
  const ArmBadState := "Cannot arm from current state"
  const ArmedOk := "Drone armed"
  const TakeoffLowBattery := "Battery too low to take off"
  const TakeoffNoGps := "Cannot take off: GPS signal lost"
  const TakeoffNotArmed := "Drone must be armed before takeoff"
  const TookOff := "Drone took off to 10m"
  const LandNotFlying := "Drone must be flying to land"
  const LandingStarted := "Landing sequence started"
  const UploadNoGps := "Cannot upload mission: GPS lock required"
  const MissionUploaded := "Mission uploaded"
  const MissionCleared := "Mission cleared"
  const ResetDone := "Drone reset to default state"

  /** `arm`: battery is checked before state; on success one percent is spent. */
  function Arm(s: Status): (r: Step)
    ensures r.outcome.Ok? <==> s.battery >= 10 && s.state == Disarmed
    ensures s.battery < 10 ==> r.outcome == Err(ArmLowBattery)
    ensures s.battery >= 10 && s.state != Disarmed ==> r.outcome == Err(ArmBadState)
    ensures r.outcome.Err? ==> r.status == s
    ensures r.outcome.Ok? ==>
      r.status.armed && r.status.state == Armed && r.status.battery == s.battery - 1
    ensures r.status.(armed := s.armed, state := s.state, battery := s.battery) == s
    ensures Inv(s) ==> Inv(r.status)
  {
    if s.battery < 10 then Step(s, Err(ArmLowBattery))
    else if s.state != Disarmed then Step(s, Err(ArmBadState))
    else Step(s.(armed := true, state := Armed, battery := ClampedSub(s.battery, 1)), Ok(ArmedOk))
  }

  /** `takeoff`: battery, then GPS lock, then state; on success the drone
      climbs to 10 m in AUTO mode and starts the mission at its first
      waypoint when there is one. */
  function Takeoff(s: Status): (r: Step)
    ensures r.outcome.Ok? <==> s.battery >= 20 && s.gpsLocked && s.state == Armed
    ensures s.battery < 20 ==> r.outcome == Err(TakeoffLowBattery)
    ensures s.battery >= 20 && !s.gpsLocked ==> r.outcome == Err(TakeoffNoGps)
    ensures s.battery >= 20 && s.gpsLocked && s.state != Armed ==>
      r.outcome == Err(TakeoffNotArmed)
    ensures r.outcome.Err? ==> r.status == s
    ensures r.outcome.Ok? ==>
      && r.status.state == Flying && r.status.altitude == 10
      && r.status.flightMode == Auto && r.status.battery == s.battery - 5
    ensures r.outcome.Ok? && |s.mission| > 0 ==> r.status.currentWp == Some(0)
    ensures |s.mission| == 0 ==> r.status.currentWp == s.currentWp
    ensures r.status.(altitude := s.altitude, state := s.state, flightMode := s.flightMode,
                      battery := s.battery, currentWp := s.currentWp) == s
    ensures Inv(s) ==> Inv(r.status)
    ensures WaypointInRange(s) ==> WaypointInRange(r.status)
  {
    if s.battery < 20 then Step(s, Err(TakeoffLowBattery))
    else if !s.gpsLocked then Step(s, Err(TakeoffNoGps))
    else if s.state != Armed then Step(s, Err(TakeoffNotArmed))
    else
      var t := s.(altitude := 10, state := Flying, flightMode := Auto,
                  battery := ClampedSub(s.battery, 5));
      Step(if |t.mission| > 0 then t.(currentWp := Some(0)) else t, Ok(TookOff))
  }

  /** `land`: only from flying; switches to MANUAL landing and spends two
      percent. The active waypoint is left as it was. */
  function Land(s: Status): (r: Step)
    ensures r.outcome.Ok? <==> s.state == Flying
    ensures r.outcome.Err? ==> r.status == s && r.outcome == Err(LandNotFlying)
    ensures r.outcome.Ok? ==>
      && r.status.state == Landing && r.status.flightMode == Manual
      && 0 <= r.status.battery && (s.battery >= 0 ==> r.status.battery <= s.battery)
      && (s.battery >= 2 ==> r.status.battery == s.battery - 2)
      && (s.battery < 2 ==> r.status.battery == 0)
    ensures r.status.(state := s.state, flightMode := s.flightMode, battery := s.battery) == s
    ensures Inv(s) ==> Inv(r.status)
    ensures WaypointInRange(s) ==> WaypointInRange(r.status)
  {
    if s.state != Flying then Step(s, Err(LandNotFlying))
    else Step(s.(state := Landing, flightMode := Manual, battery := ClampedSub(s.battery, 2)),
              Ok(LandingStarted))
  }

  /** The waypoints generated from the operator's name list, in order. */
  function Plan(names: seq<string>): (m: seq<Waypoint>)
    ensures |m| == |names|
    ensures forall i :: 0 <= i < |m| ==> m[i].name == names[i] && m[i].step == i
  {
    seq(|names|, i requires 0 <= i < |names| => Waypoint(names[i], i))
  }

  /** The names of a mission's waypoints, in order. */
  function Names(m: seq<Waypoint>): (names: seq<string>)
    ensures |names| == |m|
  {
    seq(|m|, i requires 0 <= i < |m| => m[i].name)
  }

  /** `upload_mission`: needs a GPS lock; a request without a `waypoints`
      list (None) uploads the empty mission. Only `mission` changes. */
  function UploadMission(s: Status, waypoints: Option<seq<string>>): (r: Step)
    ensures r.outcome.Ok? <==> s.gpsLocked
    ensures r.outcome.Err? ==> r.status == s && r.outcome == Err(UploadNoGps)
    ensures r.outcome.Ok? ==>
      Names(r.status.mission) == (if waypoints.Some? then waypoints.value else [])
    ensures r.outcome.Ok? ==>
      forall i :: 0 <= i < |r.status.mission| ==> r.status.mission[i].step == i
    ensures r.status.(mission := s.mission) == s
    ensures Inv(s) ==> Inv(r.status)
  {
    if !s.gpsLocked then Step(s, Err(UploadNoGps))
    else
      var names := if waypoints.Some? then waypoints.value else [];
      var m := Plan(names);
      assert Names(m) == names;
      Step(s.(mission := m), Ok(MissionUploaded))
  }

  /** `clear_mission`: always succeeds; empties the mission and drops the
      active waypoint, nothing else. */
  function ClearMission(s: Status): (r: Step)
    ensures r.outcome.Ok?
    ensures r.status.mission == [] && r.status.currentWp == None
    ensures r.status.(mission := s.mission, currentWp := s.currentWp) == s
    ensures Inv(s) ==> Inv(r.status)
    ensures WaypointInRange(r.status)
  {
    Step(s.(mission := [], currentWp := None), Ok(MissionCleared))
  }

  /** `reset`: always succeeds and restores every field to its default. */
  function Reset(s: Status): (r: Step)
    ensures r.outcome.Ok? && r.status == Initial
    ensures Inv(r.status) && WaypointInRange(r.status)
  {
    Step(Initial, Ok(ResetDone))
  }

  // The telemetry tick, one sub-rule per function, applied in this order.

  /** Sub-rule 1: one percent of battery per tick, floored at zero. */
  function DrainBattery(s: Status): (t: Status) {
    s.(battery := ClampedSub(s.battery, 1))
  }

  /** Sub-rule 2: climb 2 m while flying (capped), descend 5 m while landing
      (floored); a landing that reaches the ground disarms. */
  function MoveAltitude(s: Status): (t: Status) {
    if s.state == Flying then
      s.(altitude := ClampedAdd(s.altitude, 2, MaxAltitude))
    else if s.state == Landing then
      var alt := ClampedSub(s.altitude, 5);
      if alt == 0 then
        s.(altitude := 0, state := Disarmed, armed := false, flightMode := Manual, currentWp := None)
      else
        s.(altitude := alt)
    else
      s
  }

  /** Sub-rule 3: a flying drone at five percent or less starts a FAILSAFE
      landing. */
  function CriticalBattery(s: Status): (t: Status) {
    if s.battery <= 5 && s.state == Flying then
      s.(state := Landing, flightMode := Failsafe, currentWp := None)
    else
      s
  }

  /** Sub-rule 4: a flying drone with a mission moves to the next waypoint,
      or lands once the last one is reached. */
  function AdvanceMission(s: Status): (t: Status) {
    if s.state == Flying && |s.mission| > 0 then
      if s.currentWp.Some? && s.currentWp.value < |s.mission| - 1 then
        s.(currentWp := Some(s.currentWp.value + 1))
      else if s.currentWp.Some? && s.currentWp.value == |s.mission| - 1 then
        s.(state := Landing, flightMode := Manual, currentWp := None)
      else
        s
    else
      s
  }

  /** One telemetry tick: nothing happens while disarmed; otherwise the four
      sub-rules run in order, each reading what the previous one wrote. */
  function Tick(s: Status): (t: Status)
    ensures s.state == Disarmed ==> t == s
    ensures s.state != Disarmed ==> t.battery == ClampedSub(s.battery, 1)
    ensures s.state == Flying ==> t.altitude == ClampedAdd(s.altitude, 2, MaxAltitude)
    ensures s.state == Landing ==> t.altitude == ClampedSub(s.altitude, 5)
    ensures s.state == Armed ==> t.altitude == s.altitude && t.state == Armed
    ensures s.state == Armed ==> t == s.(battery := ClampedSub(s.battery, 1))
    ensures t.gpsLocked == s.gpsLocked && t.mission == s.mission
    ensures Inv(s) ==> Inv(t)
    ensures WaypointInRange(s) ==> WaypointInRange(t)
  {
    if s.state == Disarmed then s
    else AdvanceMission(CriticalBattery(MoveAltitude(DrainBattery(s))))
  }

  /** `n` ticks in a row with no command in between. */
  function Ticks(s: Status, n: nat): (t: Status)
    decreases n
  {
    if n == 0 then s else Ticks(Tick(s), n - 1)
  }
}

=== FILE: status.dfy ===
/** The drone's single status record, its defaults, and the invariant that
    every command and every telemetry tick keeps. */
module DroneStatus {

  datatype Option<+T> = None | Some(value: T)

  /** Primary flight state; the controller stores it as one of four strings. */
  datatype FlightState = Disarmed | Armed | Flying | Landing

  /** Operating mode; the controller stores it as one of three strings. */
  datatype FlightMode = Manual | Auto | Failsafe

  /** A mission waypoint: the operator's name for it and its position `step`
      in the uploaded list. The controller derives the coordinates from
      `step` alone (base latitude and longitude plus step * 0.001 degrees). */
  datatype Waypoint = Waypoint(name: string, step: nat)

  /** The mutable `status` record, as a value. */
  datatype Status = Status(
    armed: bool,
    altitude: int,
    mission: seq<Waypoint>,
    currentWp: Option<nat>,
    state: FlightState,
    battery: int,
    gpsLocked: bool,
    flightMode: FlightMode)

  const MaxBattery: int := 100
  const MaxAltitude: int := 120

  /** The record the process starts with; `reset` restores it. */
  const Initial: Status := Status(false, 0, [], None, Disarmed, MaxBattery, true, Manual)

  /** `max(x - d, 0)`: the controller's floored decrement. */
  function ClampedSub(x: int, d: nat): (r: int)
    ensures r >= 0
    ensures r <= x || x < 0
    ensures x >= d ==> r == x - d
    ensures x < d ==> r == 0
  {
    if x - d > 0 then x - d else 0
  }

  /** `min(x + d, cap)`: the controller's capped increment. */
  function ClampedAdd(x: int, d: nat, cap: int): (r: int)
    ensures r <= cap
    ensures x + d <= cap ==> r == x + d
    ensures x + d >= cap ==> r == cap
  {
    if x + d < cap then x + d else cap
  }

  /** What holds of every status the controller can reach from `Initial`. */
  predicate Inv(s: Status) {
    && 0 <= s.battery <= MaxBattery
    && 0 <= s.altitude <= MaxAltitude
    && (s.armed <==> s.state != Disarmed)
    && (s.state == Disarmed || s.state == Armed ==>
          s.altitude == 0 && s.flightMode == Manual && s.currentWp == None)
    && (s.state == Flying ==> s.altitude >= 10 && s.flightMode == Auto && s.battery > 5)
    && (s.state == Landing ==> s.altitude > 0 && s.flightMode != Auto)
  }

  /** The active waypoint, when there is one, is an index into the mission. */
  predicate WaypointInRange(s: Status) {
    s.currentWp.Some? ==> s.currentWp.value < |s.mission|
  }
}
